=== FILE: README.md ===
# combadge binding engine — Dafny model

This project models the declarative composition machinery of combadge, a Python library that
binds a service protocol (a class of abstract methods) to a backend and produces a service
object whose methods perform the remote calls. Three pieces are modelled:

- **Binder composition** (`binder.dfy`, module `Binder`): filtering the protocol's members
  (`_enumerate_methods`), wrapping a generated callable with its method markers (`_wrap`),
  building the method table of the generated class (`bind_class`) and instantiating it with a
  backend (`bind`, `BaseBoundService.__init__`). Members are plain values holding a name,
  parameter names and method markers. Callables are values of an opaque type. The backend's
  binder is an opaque function parameter. pydantic's `validate_arguments` is one too, and it
  receives the member, because `update_wrapper` (combadge/core/binder.py:73) copies the protocol
  method's signature onto the callable before validation.
- **Marker registration** (`method_markers.dfy`, module `MethodMarkers`): a method marker is
  a record of hook overrides. `None` means the base class's default hook, which does nothing.
  The marker lists Python keeps as a hidden attribute on each function are an explicit
  side-table from function identity to an ordered marker sequence. `ensure_markers`, `mark` and
  `wrap_with` are pure functions that return the updated table.
- **Request-shape mutations** (`http_request.dfy`, module `HttpRequest`;
  `rest_marks.dfy`, module `RestMarks`): one immutable request record carries the fields of
  all the HTTP request mixins. The getters return a `Result` instead of raising `ValueError`.
  The REST path, method and query-parameter marks are functions from request to request.

`wrappers.dfy` holds the `Option` and `Result` types.

Modelling facts worth knowing:

- `_enumerate_methods` keeps a member when `self` is any of its parameter names
  (combadge/core/binder.py:99), not only the first.
- The REST path mark writes the `path` field of `RequiresPath`, declared in
  combadge/support/rest/abc.py. That file is not part of this model. The request record keeps
  this field separate from `url_path` of combadge/support/http/abc.py.
- The record has a single `httpMethod` field. The REST method mark writes
  `RequiresMethod.method` (combadge/support/rest/marks.py:58), and `get_method` reads
  `SupportsMethod.method` (combadge/support/http/abc.py:32). On one request object these
  Python attributes have the same name, so they are one attribute.

## Model

| member | source | states |
|---|---|---|
| MethodMarkers.PlainMarkerIsInert | combadge/core/markers/method.py:20-40 | A marker that overrides nothing returns the callable it wraps unchanged, and its `prepare_request` leaves the request unchanged. |
| MethodMarkers.EnsureMarkers | combadge/core/markers/method.py:42-49 | Returns the function's existing list, or an empty one if there is none. The returned list is the one now stored for the function. The key set grows by at most that function, and every other function's list is unchanged. |
| MethodMarkers.EnsureMarkersIdempotent | combadge/core/markers/method.py:45-46 | Once a function has a list, `ensure_markers` hands back that same list and leaves the table as it is. |
| MethodMarkers.EnsureThenMarkIsVisible | combadge/core/markers/method.py:45-49 | On a function without markers, the returned list is empty. A marker appended to that function afterwards is what the next `ensure_markers` returns. |
| MethodMarkers.MethodMarker.Mark | combadge/core/markers/method.py:51-60 | Returns the marked function itself. Its list becomes the previous list (empty if none) with exactly this marker at the end. Other functions' lists are unchanged. |
| MethodMarkers.MarkAllAppends | combadge/core/markers/method.py:59-60 | Marking with a sequence of markers appends exactly that sequence, in order, after the earlier markers. No other function's list changes. |
| MethodMarkers.MarkTwice | combadge/core/markers/method.py:59 | Marking with `m1` then `m2` leaves the list as the previous list followed by `[m1, m2]`. |
| MethodMarkers.WrapWithMarkerHooks | combadge/core/markers/method.py:63-70 | Covers `WrapWithMarker` (`_WrapWithMethodMarker`). A wrap-with marker's `wrap(f)` is `decorator(f)`. Its `prepare_request` keeps the default and leaves the request unchanged. |
| MethodMarkers.WrapWith | combadge/core/markers/method.py:73-82 | `wrap_with(d)` registers, through `mark`, one marker wrapping with `d` at the end of the function's list. It returns the function itself and leaves other functions' lists unchanged. |
| Binder.Wrap | combadge/core/binder.py:86-89 | If no marker overrides `wrap` (the empty list included), the method comes back unchanged. |
| Binder.WrapSnoc | combadge/core/binder.py:87-88 | Markers apply in list order, so the last marker's wrapper is outermost: `_wrap(f, ms + [m]) == m.wrap(_wrap(f, ms))`. |
| Binder.WrapAppend | combadge/core/binder.py:86-89 | Wrapping with `a` and then with `b` equals wrapping once with `a + b`. |
| Binder.WrapWithSingleMarker | combadge/core/binder.py:86-89 | Binding with a single wrap-with marker applies exactly its decorator to the generated callable. |
| Binder.EnumerateMethods | combadge/core/binder.py:92-101 | Never yields a name starting with `_` or a member without a `self` parameter. Every member that passes both checks is yielded, and every yielded member is one of the inputs. Other members are skipped, never rejected. |
| Binder.EnumerateSnoc | combadge/core/binder.py:95-101 | One more member adds one more output exactly when it passes both checks, after the earlier outputs. With the empty case this fixes the output completely. |
| Binder.EnumerateIsSubsequence | combadge/core/binder.py:95-101 | The output is an order-preserving subsequence of the members. |
| Binder.InstallMethods | combadge/core/binder.py:69-75 | After the `setattr` loop, the class has exactly its previous attributes plus one per member name. |
| Binder.InstallMethodsEntries | combadge/core/binder.py:69-75 | With distinct member names, each member's name holds its `BoundMethod`, which is `validate(member)(_wrap(binder(member), member.markers))`. Attributes not named by a member are unchanged. |
| Binder.BindClass | combadge/core/binder.py:59-79 | The generated class's method table has exactly one entry per name that `_enumerate_methods` yields. |
| Binder.BindClassEntries | combadge/core/binder.py:69-75 | With distinct member names, each enumerated member's entry is the binder's callable for it, wrapped by its markers in order, then validated against that member's signature. |
| Binder.Bind | combadge/core/binder.py:33-56 | The service stores the given backend unchanged. It has exactly one method per name that `_enumerate_methods` yields. |
| Binder.BindUsesBackendBinder | combadge/core/binder.py:56 | Each method of the bound service is the callable that the binder of that service's own backend produced for it, wrapped by the member's markers and then validated against that member's signature. |
| HttpRequest.FreshRequestIsEmpty | combadge/support/http/abc.py:12-64 | A request with default fields (`Fresh`) has empty headers and query parameters. Its JSON and form-data maps are empty, with no stored form values. URL path and method are absent, and so is the REST path. Both `get_url_path` and `get_method` fail on it. |
| HttpRequest.GetUrlPath | combadge/support/http/abc.py:21-25 | Fails exactly when the URL path is absent or the empty string. Otherwise returns the stored path unchanged. |
| HttpRequest.UrlPathRoundTrip | combadge/support/http/abc.py:21-25 | A URL path stored in a request is read back unchanged exactly when it is non-empty. |
| HttpRequest.GetMethod | combadge/support/http/abc.py:34-38 | Fails exactly when the method is absent or the empty string. Otherwise returns the stored method unchanged. |
| HttpRequest.AppendFormField | combadge/support/http/abc.py:70-71 | The list for `name` becomes its previous list (empty if none) with the value appended. The key set grows by exactly `{name}` and no key is removed. Other keys' lists and all other request fields are unchanged. |
| HttpRequest.AppendFormFieldCount | combadge/support/http/abc.py:70-71 | Each call increases the total number of stored form values by exactly one. |
| RestMarks.NewPathMarkSetsPath | combadge/support/rest/marks.py:38-45 | Covers `NewPathMark` (`PathMark.__init__`). A mark built from a callable sets the path to that callable's value on the arguments. One built from a string sets it to the string's template formatted with the arguments. |
| RestMarks.PathMark.PrepareRequest | combadge/support/rest/marks.py:44-45 | Sets the path to the factory's value on the arguments and changes no other request field. |
| RestMarks.PathMarkIdempotent | combadge/support/rest/marks.py:44-45 | Applying a path mark twice with the same arguments gives the same request as applying it once. |
| RestMarks.RestMethodMark.PrepareRequest | combadge/support/rest/marks.py:57-58 | Sets the method to the mark's method and changes no other request field. |
| RestMarks.RestMethodLastWins | combadge/support/rest/marks.py:57-58 | Of two method marks applied in sequence, the later one's method is kept. The result equals applying only the later mark. |
| RestMarks.RestMethodThenGetMethod | combadge/support/http/abc.py:34-38 | After a method mark, `get_method` succeeds exactly when the mark's method is non-empty, and then returns it. |
| RestMarks.QueryParameterMark.PrepareRequest | combadge/support/rest/marks.py:71-72 | Appends exactly `(name, value)` after the existing query parameters and keeps them. Length grows by one. No other field changes. |
| RestMarks.QueryParamsKeepAll | combadge/support/rest/marks.py:71-72 | Applying a query mark once per value keeps every pair, in application order, without deduplication. Nothing besides the query parameters changes. |
| RestMarks.RestMarksDoNotWrap | combadge/core/markers/method.py:20-28 | The REST path and method marks inherit the default `wrap`, so `_wrap` leaves the generated method unchanged for them. |
| RestMarks.AsMethodMarkerPrepares | combadge/support/rest/marks.py:44-58 | Used as method markers, the path and method marks prepare the request exactly as their own `prepare_request` does. |

## Left out

- Reflection (`inspect.getmembers`, `inspect.signature`, the `callable` filter): a protocol is given as the sequence of its callable members with their parameter names. `inspect.getmembers` (combadge/core/binder.py:95) returns members sorted by name, so the input sequence stands for that name-sorted list. The model does not require the sort, so its statements also hold for any other order.
- `Signature.from_method` and `build_request`: combadge/core/signature.py and combadge/core/request.py are not part of this model. The binder receives the member description itself, and no marker-application order beyond the shown code is asserted.
- Binder.BindClassEntries and Binder.BindUsesBackendBinder: both require distinct member names. A class's attributes always have distinct names, so this excludes no real input.
- `functools.lru_cache` on `bind_class`: the model treats the protocol and its members' marker lists as immutable values, and `BindClass` recomputes the table on every call. Two effects of the cache are not modelled. A cached call returns the same class object every time. After a later `mark` on a protocol method, a cached call can return a stale class.
- `update_wrapper` on each bound method (combadge/core/binder.py:73) copies the protocol method's metadata, including its signature through `__wrapped__`, so the later `validate_arguments` validates against that method's parameters. Its effect is modelled only by passing the member to the opaque `validate`. The copied attributes themselves are not modelled.
- `del __abstractmethods__` and `update_wrapper` on the class (combadge/core/binder.py:77-78): they clear the abstract flag and copy class metadata, with no effect on the method table.
- pydantic `validate_arguments` and response/fault parsing: argument validation is an opaque function on callables.
- `make_method_mark_decorator` and the `MethodMark`/`ParameterMark` bases of combadge/core/mark.py: that file is not part of this model. The REST marks are treated as subclasses of the method-marker base with its default `wrap`.
- Python's `str.format` behind string path templates: an opaque function from template and arguments to a path.
- RestMarks.PathMark.PrepareRequest: always sets the path. In Python, `self._factory(**_arguments)` raises when a template names an absent argument (`KeyError` from `str.format`) or when a callable rejects the keywords. The factory and the formatter are total here, so that error path is not modelled.
- MethodMarkers.EnsureMarkers: every function id accepts a list. In Python, assigning `__combadge_marks__` raises `AttributeError` on an object that refuses new attributes. That error path is not modelled.
- HttpRequest.FreshRequestIsEmpty: the `None` default of the REST `path` field is assumed. That field is declared in combadge/support/rest/abc.py, which is not part of this model, so no source line gives its default.
- The JSON body and form data are Python dicts, which keep key insertion order (`setdefault` puts a new key last). They are modelled as Dafny maps, which have no key order, so nothing about key order is stated.
- `ParameterDescriptor` is declared as a datatype and has no behaviour of its own to state.
- The async HTTPX and Zeep backends and `SupportsRequestWith`: network I/O and async context managers.
- `combadge/interfaces.py` and `combadge/core/interfaces.py`: protocol declarations without behaviour.
- Object identity of the returned marker list: `ensure_markers` returns the stored list itself, and this is modelled by the returned list being the stored table entry.
- MethodMarkers.MethodMarker.Mark: the per-function frame (other functions' lists are unchanged) assumes that no two function objects share a marker list. In Python, `functools.wraps`/`update_wrapper` merge the wrapped function's `__dict__` into the wrapper, so a wrapper and the function it wraps can hold the same `__combadge_marks__` list, and marking one then changes the other. The side-table gives every function id its own list, so that sharing is not modelled. The same holds for MethodMarkers.EnsureMarkers, MethodMarkers.WrapWith and MethodMarkers.MarkAllAppends.

=== FILE: binder.dfy ===
/**
 * Binding a service protocol to a backend (combadge/core/binder.py).
 *
 * Reflection is replaced by plain inputs: a protocol is the sequence of its callable members,
 * each with its name, its parameter names and its method markers. Callables are values of an
 * opaque type `F`; the backend's binder and pydantic's argument validation are opaque functions.
 */
module Binder {
  import opened MethodMarkers

  /** A callable member of a protocol class, as `inspect.getmembers` lists it. */
  datatype Member<!F, !R, !A> = Member(name: string, parameters: seq<string>, markers: seq<MethodMarker<F, R, A>>)

  /** Turns a method description into the callable that performs the service call. */
  type MethodBinder<!F, !R, !A> = Member<F, R, A> -> F

  /** A parameter with the marker method that places its value into a request. */
  datatype ParameterDescriptor<!R, !V> = ParameterDescriptor(name: string, prepareRequest: (R, V) -> R)

  /** An instance of a generated service class: the backend plus the installed methods. */
  datatype BoundService<B, F> = BoundService(backend: B, methods: map<string, F>)

  /**
   * `_wrap`: applies each marker's `wrap` hook to the method, first marker first.
   * Markers that keep the default hook leave the method as it is.
   */
  function Wrap<F, R, A>(fn: F, withMarks: seq<MethodMarker<F, R, A>>): (r: F)
    ensures (forall i :: 0 <= i < |withMarks| ==> withMarks[i].wrapOverride.None?) ==> r == fn
    decreases |withMarks|
  {
    if |withMarks| == 0 then fn else Wrap(withMarks[0].Wrap(fn), withMarks[1..])
  }

  /** The last marker's wrapper is the outermost one. */
  lemma {:induction false} WrapSnoc<F, R, A>(fn: F, marks: seq<MethodMarker<F, R, A>>, mark: MethodMarker<F, R, A>)
    ensures Wrap(fn, marks + [mark]) == mark.Wrap(Wrap(fn, marks))
    decreases |marks|
  {
    if |marks| == 0 {
      assert marks + [mark] == [mark];
    } else {
      assert (marks + [mark])[1..] == marks[1..] + [mark];
      WrapSnoc(marks[0].Wrap(fn), marks[1..], mark);
    }
  }

  /** Wrapping in two stages is wrapping once with the concatenated marker list. */
  lemma {:induction false} WrapAppend<F, R, A>(fn: F, first: seq<MethodMarker<F, R, A>>, second: seq<MethodMarker<F, R, A>>)
    ensures Wrap(fn, first + second) == Wrap(Wrap(fn, first), second)
    decreases |first|
  {
    if |first| > 0 {
      assert (first + second)[1..] == first[1..] + second;
      WrapAppend(first[0].Wrap(fn), first[1..], second);
    } else {
      assert first + second == second;
    }
  }

  /** A single wrap-with marker applies exactly its decorator. */
  lemma WrapWithSingleMarker<F, R, A>(fn: F, decorator: F -> F)
    ensures Wrap(fn, [WrapWithMarker<F, R, A>(decorator)]) == decorator(fn)
  {
  }

  /** True when `name` starts with an underscore, i.e. is private by Python convention. */
  predicate IsPrivate(name: string)
  {
    |name| > 0 && name[0] == '_'
  }

  /** The filter `_enumerate_methods` applies: public, and taking `self`. */
  predicate IsServiceMethod<F, R, A>(member: Member<F, R, A>)
  {
    !IsPrivate(member.name) && "self" in member.parameters
  }

  /**
   * `_enumerate_methods`: the members that are public and take `self`, in their original order.
   * Other members are skipped, never rejected.
   */
  function EnumerateMethods<F, R, A>(members: seq<Member<F, R, A>>): (r: seq<Member<F, R, A>>)
    ensures |r| <= |members|
    ensures forall k :: 0 <= k < |r| ==> !IsPrivate(r[k].name) && "self" in r[k].parameters
    ensures forall i :: 0 <= i < |members| && IsServiceMethod(members[i]) ==> members[i] in r
    ensures forall k :: 0 <= k < |r| ==> r[k] in members
    decreases |members|
  {
    if |members| == 0 then []
    else if IsServiceMethod(members[0]) then [members[0]] + EnumerateMethods(members[1..])
    else EnumerateMethods(members[1..])
  }

  /** The names of `members`. */
  ghost function Names<F, R, A>(members: seq<Member<F, R, A>>): set<string>
  {
    set k | 0 <= k < |members| :: members[k].name
  }

  /** No two members share a name, as is the case for the attributes of a class. */
  ghost predicate DistinctNames<F, R, A>(members: seq<Member<F, R, A>>)
  {
    forall i, j :: 0 <= i < j < |members| ==> members[i].name != members[j].name
  }

  /** `xs` is `ys` with some elements dropped and the rest kept in order. */
  ghost predicate IsSubsequence<T>(xs: seq<T>, ys: seq<T>)
    decreases |ys|
  {
    if |xs| == 0 then true
    else if |ys| == 0 then false
    else if xs[0] == ys[0] then IsSubsequence(xs[1..], ys[1..])
    else IsSubsequence(xs, ys[1..])
  }

  /** Enumeration adds one more member exactly when it passes the filter. */
  lemma {:induction false} EnumerateSnoc<F, R, A>(members: seq<Member<F, R, A>>, member: Member<F, R, A>)
    ensures EnumerateMethods(members + [member])
         == EnumerateMethods(members) + (if IsServiceMethod(member) then [member] else [])
    decreases |members|
  {
    if |members| == 0 {
      assert members + [member] == [member];
      assert [member][1..] == [];
    } else {
      assert (members + [member])[0] == members[0];
      assert (members + [member])[1..] == members[1..] + [member];
      EnumerateSnoc(members[1..], member);
    }
  }

  /** The enumeration is an order-preserving subsequence of the members. */
  lemma {:induction false} EnumerateIsSubsequence<F, R, A>(members: seq<Member<F, R, A>>)
    ensures IsSubsequence(EnumerateMethods(members), members)
    decreases |members|
  {
    if |members| > 0 {
      EnumerateIsSubsequence(members[1..]);
      var rest := EnumerateMethods(members[1..]);
      if IsServiceMethod(members[0]) {
        assert ([members[0]] + rest)[1..] == rest;
      } else if |rest| > 0 && rest[0] == members[0] {
        SubsequenceOfTail(rest, members);
      }
    }
  }

  /** A subsequence of the tail of `ys` is a subsequence of `ys`. */
  lemma {:induction false} SubsequenceOfTail<T>(xs: seq<T>, ys: seq<T>)
    requires |ys| > 0 && IsSubsequence(xs, ys[1..])
    ensures IsSubsequence(xs, ys)
    decreases |xs| + |ys|
  {
    if |xs| > 0 && xs[0] == ys[0] {
      DropHead(xs, ys[1..]);
    }
  }

  /** Dropping the first element of a subsequence keeps it a subsequence. */
  lemma {:induction false} DropHead<T>(xs: seq<T>, ys: seq<T>)
    requires |xs| > 0 && IsSubsequence(xs, ys)
    ensures IsSubsequence(xs[1..], ys)
    decreases |xs| + |ys|
  {
    if xs[0] == ys[0] {
      SubsequenceOfTail(xs[1..], ys);
    } else {
      DropHead(xs, ys[1..]);
      SubsequenceOfTail(xs[1..], ys);
    }
  }

  /** Enumeration keeps names distinct. */
  lemma {:induction false} EnumeratePreservesDistinctNames<F, R, A>(members: seq<Member<F, R, A>>)
    requires DistinctNames(members)
    ensures DistinctNames(EnumerateMethods(members))
    decreases |members|
  {
    if |members| > 0 {
      var rest := EnumerateMethods(members[1..]);
      EnumeratePreservesDistinctNames(members[1..]);
      if IsServiceMethod(members[0]) {
        var r := [members[0]] + rest;
        forall i, j | 0 <= i < j < |r|
          ensures r[i].name != r[j].name
        {
          if i == 0 {
            assert r[j] == rest[j - 1];
            var k :| 0 <= k < |members[1..]| && members[1..][k] == rest[j - 1];
            assert members[k + 1] == r[j];
          }
        }
      }
    }
  }

  /** The generated callable for one member: the binder's callable, wrapped by the member's markers, then validated. */
  function BoundMethod<F, R, A>(member: Member<F, R, A>, methodBinder: MethodBinder<F, R, A>, validate: Member<F, R, A> -> F -> F): F
  {
    validate(member)(Wrap(methodBinder(member), member.markers))
  }

  /** The `setattr` loop of `bind_class`: installs each member's bound method under its name. */
  function InstallMethods<F, R, A>(methods: map<string, F>, members: seq<Member<F, R, A>>, methodBinder: MethodBinder<F, R, A>, validate: Member<F, R, A> -> F -> F): (r: map<string, F>)
    ensures r.Keys == methods.Keys + Names(members)
    decreases |members|
  {
    if |members| == 0 then methods
    else
      var installed := methods[members[0].name := BoundMethod(members[0], methodBinder, validate)];
      assert Names(members) == {members[0].name} + Names(members[1..]) by {
        assert forall k :: 0 < k < |members| ==> members[k] == members[1..][k - 1];
      }
      InstallMethods(installed, members[1..], methodBinder, validate)
  }

  /**
   * `bind_class`: the method table of the generated service class, one entry per enumerated
   * member. `validate(member)` stands for pydantic's `validate_arguments` applied after
   * `update_wrapper` has copied the protocol method's signature onto the callable, so the
   * validation it performs depends on the member.
   */
  function BindClass<F, R, A>(protocol: seq<Member<F, R, A>>, methodBinder: MethodBinder<F, R, A>, validate: Member<F, R, A> -> F -> F): (methods: map<string, F>)
    ensures methods.Keys == Names(EnumerateMethods(protocol))
  {
    InstallMethods(map[], EnumerateMethods(protocol), methodBinder, validate)
  }

  /** With distinct names, every installed entry is its own member's bound method; other entries stay. */
  lemma {:induction false} InstallMethodsEntries<F, R, A>(methods: map<string, F>, members: seq<Member<F, R, A>>, methodBinder: MethodBinder<F, R, A>, validate: Member<F, R, A> -> F -> F)
    requires DistinctNames(members)
    ensures forall k :: 0 <= k < |members| ==>
      InstallMethods(methods, members, methodBinder, validate)[members[k].name] == BoundMethod(members[k], methodBinder, validate)
    ensures forall name :: name in methods && name !in Names(members) ==>
      InstallMethods(methods, members, methodBinder, validate)[name] == methods[name]
    decreases |members|
  {
    if |members| > 0 {
      var installed := methods[members[0].name := BoundMethod(members[0], methodBinder, validate)];
      assert DistinctNames(members[1..]);
      InstallMethodsEntries(installed, members[1..], methodBinder, validate);
      assert members[0].name !in Names(members[1..]);
      forall k | 0 <= k < |members|
        ensures InstallMethods(methods, members, methodBinder, validate)[members[k].name] == BoundMethod(members[k], methodBinder, validate)
      {
        if k > 0 {
          assert members[k] == members[1..][k - 1];
        }
      }
    }
  }

  /** `bind_class` installs, for each enumerated member, exactly its wrapped and validated callable. */
  lemma BindClassEntries<F, R, A>(protocol: seq<Member<F, R, A>>, methodBinder: MethodBinder<F, R, A>, validate: Member<F, R, A> -> F -> F, k: nat)
    requires DistinctNames(protocol)
    requires k < |EnumerateMethods(protocol)|
    ensures var member := EnumerateMethods(protocol)[k];
      BindClass(protocol, methodBinder, validate)[member.name] == validate(member)(Wrap(methodBinder(member), member.markers))
  {
    EnumeratePreservesDistinctNames(protocol);
    InstallMethodsEntries(map[], EnumerateMethods(protocol), methodBinder, validate);
  }

  /**
   * `bind`: builds the service class with the backend's own binder and instantiates it with
   * that same backend, which the constructor stores unchanged.
   */
  function Bind<B, F, R, A>(protocol: seq<Member<F, R, A>>, toBackend: B, binderOf: B -> MethodBinder<F, R, A>, validate: Member<F, R, A> -> F -> F): (service: BoundService<B, F>)
    ensures service.backend == toBackend
    ensures service.methods.Keys == Names(EnumerateMethods(protocol))
  {
    BoundService(toBackend, BindClass(protocol, binderOf(toBackend), validate))
  }

  /**
   * Every method of a bound service is the callable that the binder of the service's own
   * backend produced for it, wrapped by the member's markers and then validated.
   */
  lemma BindUsesBackendBinder<B, F, R, A>(protocol: seq<Member<F, R, A>>, toBackend: B, binderOf: B -> MethodBinder<F, R, A>, validate: Member<F, R, A> -> F -> F, member: Member<F, R, A>)
    requires DistinctNames(protocol)
    requires member in EnumerateMethods(protocol)
    ensures var service := Bind(protocol, toBackend, binderOf, validate);
      service.methods[member.name] == validate(member)(Wrap(binderOf(service.backend)(member), member.markers))
  {
    var k :| 0 <= k < |EnumerateMethods(protocol)| && EnumerateMethods(protocol)[k] == member;
    BindClassEntries(protocol, binderOf(toBackend), validate, k);
  }
}

=== FILE: http_request.dfy ===
/**
 * The request record that markers build up (combadge/support/http/abc.py).
 *
 * Python composes a request class from mixins, each contributing one field with a default.
 * Here a single record carries all of them; values of any type are of the type parameter `V`.
 */
module HttpRequest {
  import opened Wrappers

  /**
   * A request under construction. `path` is the field the REST path marker writes
   * (`RequiresPath` of combadge/support/rest/abc.py); `urlPath` is `SupportsUrlPath.url_path`.
   */
  datatype Request<V> = Request(
    headers: seq<(string, V)>,
    path: Option<string>,
    urlPath: Option<string>,
    httpMethod: Option<string>,
    queryParams: seq<(string, V)>,
    json: map<string, V>,
    formData: map<string, seq<V>>)

  /** A request built from the mixins' field defaults. */
  function Fresh<V>(): Request<V>
  {
    Request([], None, None, None, [], map[], map[])
  }

  /** Python truthiness of an optional string: present and non-empty. */
  predicate IsSet(s: Option<string>)
  {
    s.Some? && s.value != ""
  }

  /** `get_url_path`: the URL path, or the error raised when it is absent or empty. */
  function GetUrlPath<V>(request: Request<V>): (r: Result<string, string>)
    ensures r.Success? <==> IsSet(request.urlPath)
    ensures r.Success? ==> Some(r.value) == request.urlPath
  {
    if !IsSet(request.urlPath) then Failure("an HTTP request requires a non-empty URL path")
    else Success(request.urlPath.value)
  }

  /** A stored URL path is read back unchanged exactly when it is non-empty. */
  lemma UrlPathRoundTrip<V>(request: Request<V>, urlPath: string)
    ensures GetUrlPath(request.(urlPath := Some(urlPath))).Success? <==> urlPath != ""
    ensures urlPath != "" ==> GetUrlPath(request.(urlPath := Some(urlPath))) == Success(urlPath)
  {
  }

  /** `get_method`: the HTTP method, or the error raised when it is absent or empty. */
  function GetMethod<V>(request: Request<V>): (r: Result<string, string>)
    ensures r.Success? <==> IsSet(request.httpMethod)
    ensures r.Success? ==> Some(r.value) == request.httpMethod
  {
    if !IsSet(request.httpMethod) then Failure("an HTTP request requires a non-empty method")
    else Success(request.httpMethod.value)
  }

  /** The values stored for `name`; a key without a list has none. */
  function FormValues<V>(formData: map<string, seq<V>>, name: string): seq<V>
  {
    if name in formData then formData[name] else []
  }

  /**
   * `append_form_field`: `form_data.setdefault(name, []).append(value)`.
   * The list for `name` grows by `value` at its end; other keys and fields are untouched.
   */
  function AppendFormField<V>(request: Request<V>, name: string, value: V): (r: Request<V>)
    ensures r.formData.Keys == request.formData.Keys + {name}
    ensures r.formData[name] == FormValues(request.formData, name) + [value]
    ensures forall key :: key in request.formData && key != name ==> r.formData[key] == request.formData[key]
    ensures r.(formData := request.formData) == request
  {
    var withDefault := if name in request.formData then request.formData else request.formData[name := []];
    request.(formData := withDefault[name := withDefault[name] + [value]])
  }

  /** The number of values stored over all keys of a form-data multimap. */
  ghost function TotalFormValues<V>(formData: map<string, seq<V>>): nat
    decreases |formData|
  {
    if |formData| == 0 then 0
    else
      var key :| key in formData;
      |formData[key]| + TotalFormValues(formData - {key})
  }

  /** The total can be split at any key, not only at the one the definition picks. */
  lemma {:induction false} TotalFormValuesSplit<V>(formData: map<string, seq<V>>, key: string)
    requires key in formData
    ensures TotalFormValues(formData) == |formData[key]| + TotalFormValues(formData - {key})
    decreases |formData|, 1
  {
    TotalFormValuesUnfold(formData);
    var picked :| picked in formData && TotalFormValues(formData) == |formData[picked]| + TotalFormValues(formData - {picked});
    if picked != key {
      TotalFormValuesSwap(formData, picked, key);
    }
  }

  /** The definition of the total, with the key it picks named. */
  lemma TotalFormValuesUnfold<V>(formData: map<string, seq<V>>)
    requires |formData| != 0
    ensures exists key :: key in formData && TotalFormValues(formData) == |formData[key]| + TotalFormValues(formData - {key})
  {
  }

  /** Splitting at `picked` and splitting at `key` give the same total. */
  lemma {:induction false} TotalFormValuesSwap<V>(formData: map<string, seq<V>>, picked: string, key: string)
    requires picked in formData && key in formData && picked != key
    ensures |formData[picked]| + TotalFormValues(formData - {picked}) == |formData[key]| + TotalFormValues(formData - {key})
    decreases |formData|, 0
  {
    assert formData - {picked} - {key} == formData - {key} - {picked};
    TotalFormValuesSplit(formData - {picked}, key);
    TotalFormValuesSplit(formData - {key}, picked);
  }

  /** Replacing the list of one key changes the total by the difference in that list's length. */
  lemma TotalFormValuesUpdate<V>(formData: map<string, seq<V>>, name: string, values: seq<V>)
    ensures TotalFormValues(formData[name := values]) + |FormValues(formData, name)| == TotalFormValues(formData) + |values|
  {
    var updated := formData[name := values];
    TotalFormValuesSplit(updated, name);
    UpdateThenRemove(formData, name, values);
    if name in formData {
      TotalFormValuesSplit(formData, name);
    }
  }

  /** Removing the updated key undoes the update. */
  lemma UpdateThenRemove<V>(formData: map<string, seq<V>>, name: string, values: seq<V>)
    ensures formData[name := values] - {name} == formData - {name}
    ensures name !in formData ==> formData - {name} == formData
  {
  }

  /** Each `append_form_field` adds exactly one stored value. */
  lemma AppendFormFieldCount<V>(request: Request<V>, name: string, value: V)
    ensures TotalFormValues(AppendFormField(request, name, value).formData) == TotalFormValues(request.formData) + 1
  {
    var values := FormValues(request.formData, name) + [value];
    var after := AppendFormField(request, name, value).formData;
    assert after == request.formData[name := values] by {
      assert after.Keys == request.formData[name := values].Keys;
    }
    TotalFormValuesUpdate(request.formData, name, values);
  }

  /** A fresh request has no headers, query parameters, JSON or form data, and fails both getters. */
  lemma FreshRequestIsEmpty<V>()
    ensures Fresh<V>().headers == [] && Fresh<V>().queryParams == []
    ensures TotalFormValues(Fresh<V>().formData) == 0
    ensures Fresh<V>().path.None? && Fresh<V>().urlPath.None? && Fresh<V>().httpMethod.None?
    ensures Fresh<V>().json == map[] && Fresh<V>().formData == map[]
    ensures GetUrlPath(Fresh<V>()).Failure? && GetMethod(Fresh<V>()).Failure?
  {
  }
}

=== FILE: method_markers.dfy ===
/**
 * Method markers and the per-function marker lists they are registered in
 * (combadge/core/markers/method.py).
 *
 * Python keeps the list on the function object as a hidden attribute; here it is an explicit
 * side-table from function identity to an ordered marker sequence, and attribute mutation
 * becomes a map update.
 */
module MethodMarkers {
  import opened Wrappers

  /** Identity of a function object that markers can be attached to. */
  type FunctionId = nat

  /**
   * A method marker over callables `F`, requests `R` and bound arguments `A`.
   *
   * A Python marker class inherits `wrap` and `prepare_request` from the base class and may
   * override either. The fields hold those overrides; `None` means the inherited default.
   */
  datatype MethodMarker<!F, !R, !A> = MethodMarker(wrapOverride: Option<F -> F>, prepareOverride: Option<(R, A) -> R>)
  {
    /** The bind-time hook that wraps the generated method. */
    function Wrap(what: F): F
    {
      match wrapOverride
      case None => what
      case Some(decorator) => decorator(what)
    }

    /** The call-time hook that modifies the request being built. */
    function PrepareRequest(request: R, arguments: A): R
    {
      match prepareOverride
      case None => request
      case Some(prepare) => prepare(request, arguments)
    }

    /** Registers this marker on `what` and hands `what` back, as a decorator does. */
    function Mark(table: MarkerTable<F, R, A>, what: FunctionId): (r: Marked<F, R, A>)
      ensures r.target == what
      ensures r.table.Keys == table.Keys + {what}
      ensures r.table[what] == MarkersOf(table, what) + [this]
      ensures forall fn :: fn in table && fn != what ==> r.table[fn] == table[fn]
    {
      var ensured := EnsureMarkers(table, what);
      Marked(ensured.table[what := ensured.markers + [this]], what)
    }
  }

  /** The marker that overrides nothing: the base class's behaviour. */
  function Plain<F, R, A>(): MethodMarker<F, R, A>
  {
    MethodMarker(None, None)
  }

  /** The hidden marker lists of all function objects. */
  type MarkerTable<!F, !R, !A> = map<FunctionId, seq<MethodMarker<F, R, A>>>

  /** The markers recorded for `fn`; a function without a list has none. */
  function MarkersOf<F, R, A>(table: MarkerTable<F, R, A>, fn: FunctionId): seq<MethodMarker<F, R, A>>
  {
    if fn in table then table[fn] else []
  }

  /** The table after `ensure_markers`, together with the list it returned. */
  datatype Ensured<!F, !R, !A> = Ensured(table: MarkerTable<F, R, A>, markers: seq<MethodMarker<F, R, A>>)

  /** The table after `mark`, together with the function it returned. */
  datatype Marked<!F, !R, !A> = Marked(table: MarkerTable<F, R, A>, target: FunctionId)

  /**
   * Returns the marker list of `fn`, attaching an empty one first if it has none.
   * The returned list is the stored one, so later appends to it stay visible.
   */
  function EnsureMarkers<F, R, A>(table: MarkerTable<F, R, A>, fn: FunctionId): (r: Ensured<F, R, A>)
    ensures r.markers == MarkersOf(table, fn)
    ensures fn in r.table && r.table[fn] == r.markers
    ensures r.table.Keys == table.Keys + {fn}
    ensures forall other :: other in table ==> r.table[other] == table[other]
  {
    if fn in table then
      Ensured(table, table[fn])
    else
      var marks := [];
      Ensured(table[fn := marks], marks)
  }

  /** A second `ensure_markers` returns the same list and changes nothing. */
  lemma EnsureMarkersIdempotent<F, R, A>(table: MarkerTable<F, R, A>, fn: FunctionId)
    ensures EnsureMarkers(EnsureMarkers(table, fn).table, fn) == EnsureMarkers(table, fn)
  {
  }

  /** `_WrapWithMethodMarker(decorator)`: a marker whose only override is `wrap`. */
  function WrapWithMarker<F, R, A>(decorator: F -> F): MethodMarker<F, R, A>
  {
    MethodMarker(Some(decorator), None)
  }

  /**
   * `wrap_with(decorator)` applied to `what`: registers a wrap-with marker through `mark`,
   * so it lands at the end of the function's list and nothing else changes.
   */
  function WrapWith<F, R, A>(decorator: F -> F, table: MarkerTable<F, R, A>, what: FunctionId): (r: Marked<F, R, A>)
    ensures r.target == what
    ensures r.table.Keys == table.Keys + {what}
    ensures MarkersOf(r.table, what) == MarkersOf(table, what) + [WrapWithMarker(decorator)]
    ensures forall fn :: fn in table && fn != what ==> fn in r.table && r.table[fn] == table[fn]
  {
    WrapWithMarker(decorator).Mark(table, what)
  }

  /** A wrap-with marker's `wrap(f)` is `decorator(f)`, and it leaves requests alone. */
  lemma WrapWithMarkerHooks<F, R, A>(decorator: F -> F, f: F, request: R, arguments: A)
    ensures WrapWithMarker<F, R, A>(decorator).Wrap(f) == decorator(f)
    ensures WrapWithMarker<F, R, A>(decorator).PrepareRequest(request, arguments) == request
  {
  }

  /** Marks `what` with each of `markers`, first to last. */
  function MarkAll<F, R, A>(table: MarkerTable<F, R, A>, what: FunctionId, markers: seq<MethodMarker<F, R, A>>): MarkerTable<F, R, A>
    decreases |markers|
  {
    if |markers| == 0 then table else MarkAll(markers[0].Mark(table, what).table, what, markers[1..])
  }

  /** The default hooks do nothing: `wrap` returns its argument, `prepare_request` leaves the request alone. */
  lemma PlainMarkerIsInert<F, R, A>(f: F, request: R, arguments: A)
    ensures Plain<F, R, A>().Wrap(f) == f
    ensures Plain<F, R, A>().PrepareRequest(request, arguments) == request
  {
  }

  /** Marking only appends: every `mark` adds itself at the end, in order, and touches no other function. */
  lemma {:induction false} MarkAllAppends<F, R, A>(table: MarkerTable<F, R, A>, what: FunctionId, markers: seq<MethodMarker<F, R, A>>)
    ensures MarkersOf(MarkAll(table, what, markers), what) == MarkersOf(table, what) + markers
    ensures MarkAll(table, what, markers).Keys <= table.Keys + {what}
    ensures forall fn :: fn in table && fn != what ==> fn in MarkAll(table, what, markers) && MarkAll(table, what, markers)[fn] == table[fn]
    decreases |markers|
  {
    if |markers| > 0 {
      var next := markers[0].Mark(table, what).table;
      MarkAllAppends(next, what, markers[1..]);
      assert MarkersOf(table, what) + markers == MarkersOf(table, what) + [markers[0]] + markers[1..];
    }
  }

  /** Marking with `m1` then `m2` leaves the list ending in `[m1, m2]`. */
  lemma MarkTwice<F, R, A>(table: MarkerTable<F, R, A>, what: FunctionId, m1: MethodMarker<F, R, A>, m2: MethodMarker<F, R, A>)
    ensures MarkersOf(m2.Mark(m1.Mark(table, what).table, what).table, what) == MarkersOf(table, what) + [m1, m2]
  {
    assert MarkersOf(table, what) + [m1] + [m2] == MarkersOf(table, what) + [m1, m2];
  }

  /**
   * The list handed out for a fresh function is empty, and a marker appended to that
   * function afterwards is seen by the next `ensure_markers`.
   */
  lemma EnsureThenMarkIsVisible<F, R, A>(table: MarkerTable<F, R, A>, fn: FunctionId, m: MethodMarker<F, R, A>)
    requires fn !in table
    ensures EnsureMarkers(table, fn).markers == []
    ensures EnsureMarkers(m.Mark(EnsureMarkers(table, fn).table, fn).table, fn).markers == [m]
  {
  }
}

=== FILE: rest_marks.dfy ===
/**
 * Markers for REST services (combadge/support/rest/marks.py): the URL path, the HTTP method,
 * and query parameters. Each is a small transformer of the request record.
 */
module RestMarks {
  import opened Wrappers
  import opened HttpRequest
  import opened MethodMarkers
  import Binder

  /** Bound call arguments by parameter name. */
  type Arguments<V> = map<string, V>

  /** What `path(...)` accepts: a format template, or a callable computing the path. */
  datatype PathOrFactory<!V> = PathTemplate(template: string) | PathFactory(factory: Arguments<V> -> string)

  /** `PathMark`: computes the request path from all call arguments. */
  datatype PathMark<!V> = PathMark(factory: Arguments<V> -> string)
  {
    /** Sets the request path to the factory's value; nothing else changes. */
    function PrepareRequest(request: Request<V>, arguments: Arguments<V>): (r: Request<V>)
      ensures r.path == Some(factory(arguments))
      ensures r.(path := request.path) == request
    {
      request.(path := Some(factory(arguments)))
    }

    /** The mark as a method marker: it overrides `prepare_request` and keeps the default `wrap`. */
    function AsMethodMarker<F>(): MethodMarker<F, Request<V>, Arguments<V>>
    {
      MethodMarker(None, Some((request, arguments) => PrepareRequest(request, arguments)))
    }
  }

  /**
   * `PathMark.__init__`: a callable is used as the factory as it is; a string contributes its
   * template formatter, here the opaque `format` standing for `str.format`.
   */
  function NewPathMark<V>(pathOrFactory: PathOrFactory<V>, format: string -> Arguments<V> -> string): PathMark<V>
  {
    match pathOrFactory
    case PathFactory(factory) => PathMark(factory)
    case PathTemplate(template) => PathMark(format(template))
  }

  /** `RestMethodMark`: sets the HTTP method. */
  datatype RestMethodMark = RestMethodMark(httpMethod: string)
  {
    /** Sets the request method to this mark's method; nothing else changes. */
    function PrepareRequest<V>(request: Request<V>, arguments: Arguments<V>): (r: Request<V>)
      ensures r.httpMethod == Some(httpMethod)
      ensures r.(httpMethod := request.httpMethod) == request
    {
      request.(httpMethod := Some(httpMethod))
    }

    /** The mark as a method marker: it overrides `prepare_request` and keeps the default `wrap`. */
    function AsMethodMarker<F, V>(): MethodMarker<F, Request<V>, Arguments<V>>
    {
      MethodMarker(None, Some((request, arguments) => PrepareRequest(request, arguments)))
    }
  }

  /** `QueryParameterMark`: places a parameter's value into the query string under `name`. */
  datatype QueryParameterMark = QueryParameterMark(name: string)
  {
    /** Appends `(name, value)` after the existing query parameters; nothing else changes. */
    function PrepareRequest<V>(request: Request<V>, value: V): (r: Request<V>)
      ensures |r.queryParams| == |request.queryParams| + 1
      ensures r.queryParams[..|request.queryParams|] == request.queryParams
      ensures r.queryParams[|request.queryParams|] == (name, value)
      ensures r.(queryParams := request.queryParams) == request
    {
      request.(queryParams := request.queryParams + [(name, value)])
    }

    /** Applies this mark once per value, in order. */
    function PrepareRequestAll<V>(request: Request<V>, values: seq<V>): Request<V>
      decreases |values|
    {
      if |values| == 0 then request else PrepareRequestAll(PrepareRequest(request, values[0]), values[1..])
    }
  }

  /** The query pairs `(name, v)` for each of `values`, in order. */
  function QueryPairs<V>(name: string, values: seq<V>): (pairs: seq<(string, V)>)
    ensures |pairs| == |values|
    ensures forall i :: 0 <= i < |values| ==> pairs[i] == (name, values[i])
  {
    seq(|values|, i requires 0 <= i < |values| => (name, values[i]))
  }

  /** A path mark applied twice with the same arguments has the effect of applying it once. */
  lemma PathMarkIdempotent<V>(mark: PathMark<V>, request: Request<V>, arguments: Arguments<V>)
    ensures mark.PrepareRequest(mark.PrepareRequest(request, arguments), arguments) == mark.PrepareRequest(request, arguments)
  {
  }

  /**
   * The path a constructed mark sets: the callable's value on the arguments, or the template
   * formatted with the arguments.
   */
  lemma NewPathMarkSetsPath<V>(pathOrFactory: PathOrFactory<V>, format: string -> Arguments<V> -> string, request: Request<V>, arguments: Arguments<V>)
    ensures pathOrFactory.PathFactory? ==>
      NewPathMark(pathOrFactory, format).PrepareRequest(request, arguments).path == Some(pathOrFactory.factory(arguments))
    ensures pathOrFactory.PathTemplate? ==>
      NewPathMark(pathOrFactory, format).PrepareRequest(request, arguments).path == Some(format(pathOrFactory.template)(arguments))
  {
  }

  /** Of two method marks applied in sequence, the later one wins and the earlier leaves no trace. */
  lemma RestMethodLastWins<V>(first: RestMethodMark, second: RestMethodMark, request: Request<V>, arguments: Arguments<V>)
    ensures second.PrepareRequest(first.PrepareRequest(request, arguments), arguments).httpMethod == Some(second.httpMethod)
    ensures second.PrepareRequest(first.PrepareRequest(request, arguments), arguments) == second.PrepareRequest(request, arguments)
  {
  }

  /** The method set by a method mark is what `get_method` returns, unless it is empty. */
  lemma RestMethodThenGetMethod<V>(mark: RestMethodMark, request: Request<V>, arguments: Arguments<V>)
    ensures GetMethod(mark.PrepareRequest(request, arguments)).Success? <==> mark.httpMethod != ""
    ensures mark.httpMethod != "" ==> GetMethod(mark.PrepareRequest(request, arguments)) == Success(mark.httpMethod)
  {
  }

  /** Repeated query parameters with one name are all kept, in application order, without deduplication. */
  lemma {:induction false} QueryParamsKeepAll<V>(mark: QueryParameterMark, request: Request<V>, values: seq<V>)
    ensures mark.PrepareRequestAll(request, values).queryParams == request.queryParams + QueryPairs(mark.name, values)
    ensures mark.PrepareRequestAll(request, values).(queryParams := request.queryParams) == request
    decreases |values|
  {
    if |values| > 0 {
      var next := mark.PrepareRequest(request, values[0]);
      QueryParamsKeepAll(mark, next, values[1..]);
      QueryPairsCons(mark.name, values);
      assert next.queryParams == request.queryParams + [(mark.name, values[0])];
    } else {
      assert QueryPairs(mark.name, values) == [];
    }
  }

  /** The pairs for a non-empty value list are the first value's pair followed by the rest's. */
  lemma QueryPairsCons<V>(name: string, values: seq<V>)
    requires |values| > 0
    ensures QueryPairs(name, values) == [(name, values[0])] + QueryPairs(name, values[1..])
  {
  }

  /** REST method markers keep the default `wrap`, so binding does not wrap methods for them. */
  lemma RestMarksDoNotWrap<F, V>(fn: F, path: PathMark<V>, rest: RestMethodMark)
    ensures Binder.Wrap(fn, [path.AsMethodMarker<F>(), rest.AsMethodMarker<F, V>()]) == fn
  {
  }

  /** As method markers, the REST marks prepare the request exactly as their own hooks do. */
  lemma AsMethodMarkerPrepares<F, V>(path: PathMark<V>, rest: RestMethodMark, request: Request<V>, arguments: Arguments<V>)
    ensures path.AsMethodMarker<F>().PrepareRequest(request, arguments) == path.PrepareRequest(request, arguments)
    ensures rest.AsMethodMarker<F, V>().PrepareRequest(request, arguments) == rest.PrepareRequest(request, arguments)
  {
  }
}

=== FILE: wrappers.dfy ===
/** Optional values, and results carrying the error that the Python code would raise. */
module Wrappers {

  /** An optional value; Python's `Optional[T]`, with `None` as the absent case. */
  datatype Option<T> = None | Some(value: T)

  /** Either a value or the error that a Python function would have raised. */
  datatype Result<T, E> = Success(value: T) | Failure(error: E)
}
